=== FILE: README.md ===
# Chain state synchronization, batch execution, micropay warrants and sub-seed keys — a Dafny model

This project models four sequential pieces of the chain node in Dafny 4.11 and proves properties of them.

- **State manager reconciliation step** (`StateManager`, `statemgr.dfy`). The manager is an immutable record. It holds the solid state, the anchor ("state") output, the last notified hash, the pull retry time, the candidate tracker, the published `SyncInfo` and an event log. `takeAction` runs pull, sync, notify and store, in that order. Blocks arrive from the local committee (`addBlockFromConsensus`) or from a peer (`addBlockFromPeer`).
- **Deterministic batch executor** (`RunVM`, `runtask.dfy`). `runTask` is a method whose request loop is verified against a reference left fold, `Prefix`. The fold gives one state update per request. Each timestamp advances by one only when it is non-zero. The entropy is hashed after every request. The block sits at the previous index + 1, and its state hash is taken on a clone of the previous state. Every path records exactly one `OnFinish` call.
- **Micropay warrant ledger** (`Micropay`, `micropay.dfy`). The entry points are `publicKey`, `addWarrant`, `revokeWarrant`, `closeWarrant` and `getWarrantInfo`, plus their storage helpers. A per-payer map is flattened into one map keyed by (payer, element key). Revoke entries are keyed by `service ++ "-revoke"`.
- **Sub-seed derivation** (`KeyPair`, `keypair.dfy`). This covers SLIP-0010 ed25519 master-key generation and hardened child derivation along `44'/coin'/index'/0'/0'`. It also covers the key pair of the sub-seed and the 33-byte address.

Shared modules:
- `Outcomes` (`outcomes.dfy`) holds `Option` and `Result`.
- `Bytes` (`bytes.dfy`) holds bytes, fixed-length byte strings and big-endian `uint32` encoding.

Hashes and crypto primitives are uninterpreted function values with fixed output lengths. These are HMAC-SHA512, ed25519 key generation, blake2b-256, the state hash and `hashing.HashData`. The transaction builder, the VM context and per-request execution are opaque, possibly failing function values of a `Machinery` record. The micropay sandbox's foreign calls are recorded as effects, and whether each succeeds is a parameter. Time is a parameter `now` or the call's timestamp.

Behaviour the model takes from the code:
- A peer block triggers a request for its confirming output only when it is at an index being synced, new to the tracker, and not approved by the current anchor output (`action.go:94-107`, `109-125`).
- A block from the local committee skips the syncing check and goes straight to `addBlockAndCheckStateOutput`. Whether the tracker then refuses it is the tracker's own rule, which is not part of this model.
- `StateIndex() + 1` is uint32 arithmetic, so the block after index 2^32 - 1 is at index 0 (`RunVM.NextStateIndex`).

Source notes:
- In `runTask`, a batch timestamp `T > 0` gives request `i` the timestamp `T + i`, and `T = 0` gives every request 0 (`RunVM.TimestampAtClosedForm`). With a negative `T`, the loop stops advancing once the timestamp reaches 0, because only non-zero timestamps are incremented. `RunVM.TimestampAt` models that loop step by step.
- The doc comment of `getWarrantInfo` calls the revoke value "Unix nanosec". `revokeWarrant` stores `revokeDeadline.Unix()`, which is whole seconds. `Micropay.RevokeDeadline` models the seconds that are actually stored.
- `publicKey` registers the whole parameter bytes under the address, not just the parsed 32-byte key.

## Model

| member | source | states |
|---|---|---|
| StateManager.TakeAction | packages/chain/statemgr/action.go:16-25 | A manager that is not ready is returned unchanged. After a pass on a ready manager, another notification attempt fires nothing. When the anchor's state data decode to a hash, the published record describes the manager as it stands at the end of the pass. |
| StateManager.TakeActionEventOrder | packages/chain/statemgr/action.go:16-48 | If the sync step leaves the event log alone, the pass appends the anchor pull first, exactly when `now` is past the retry time. Then it appends either no notification events or exactly two: the state-transition event followed by the synced event. |
| StateManager.NotifyStateTransitionIfNeeded | packages/chain/statemgr/action.go:27-48 | It fires iff the solid hash differs from the notified hash and the manager is synced. Firing appends a state-transition event (solid state, output, output timestamp) and then a synced event (output ID, index), and records the solid hash as notified. When it does not fire, the manager is returned unchanged. When synced, the notified hash equals the solid hash afterwards. Nothing else changes. |
| StateManager.NotifyIdempotent | packages/chain/statemgr/action.go:27-37 | A second notification right after the first changes nothing. |
| StateManager.NotifyOncePerSolidHash | packages/chain/statemgr/action.go:28-37 | Once a solid hash has been notified, no manager with that solid hash and notified hash fires again. |
| StateManager.IsSynced | packages/chain/statemgr/action.go:50-55 | A manager without an anchor output is never synced. A synced manager's anchor state data are exactly 32 bytes long. |
| StateManager.IsSyncedMeansAnchorCommitsToSolid | packages/chain/statemgr/action.go:50-55 | Synced iff an anchor output exists and its state data decode to exactly the solid state's hash. Without an anchor output it is never synced. |
| StateManager.HashValueFromBytes | packages/chain/statemgr/action.go:132-136 | The state data decode to a hash iff they are 32 bytes long, and the hash is those bytes. |
| StateManager.PullStateIfNeeded | packages/chain/statemgr/action.go:57-67 | It issues a pull and sets the retry time to `now` + the retry delay iff `now` is strictly after the retry time. Otherwise the manager is unchanged. Nothing else ever changes. |
| StateManager.PullBacksOff | packages/chain/statemgr/action.go:57-67 | After a pull, with a non-negative retry delay, no further pull is issued at any time up to the new deadline. |
| StateManager.AddBlockCandidate | packages/chain/statemgr/action.go:111-114 | The tracker returns no candidate exactly when its own rule refuses the block. Otherwise a candidate is keyed by (index, hash): a known key returns that candidate unchanged with isNew = false, and a new key adds one unapproved candidate. |
| StateManager.AddBlockAndCheckStateOutput | packages/chain/statemgr/action.go:109-125 | It returns true iff the tracker does not refuse the block, the (index, hash) is new, and the current anchor output (when there is one) does not approve the candidate. A new candidate adds exactly its key, holding the block and the committee's computed next state (if any), and keeps the other candidates. A nil candidate or a known block leaves the manager unchanged. Only the tracker ever changes. |
| StateManager.AddBlockAndCheckIdempotent | packages/chain/statemgr/action.go:109-125 | Adding the same block a second time returns false and changes nothing. |
| StateManager.AddBlockFromPeer | packages/chain/statemgr/action.go:94-107 | A block at an index that is not being synced changes nothing. Otherwise the approving output is requested exactly when the add-and-check result is true. At most one request is appended. |
| StateManager.PeerBlockRequestedOnce | packages/chain/statemgr/action.go:94-107 | Receiving the same peer block twice requests its approving output at most once and changes nothing the second time. |
| StateManager.AddBlockFromConsensus | packages/chain/statemgr/action.go:69-92 | A failed or empty block extraction changes nothing. Otherwise the block is added to the tracker. If the anchor output is unknown or its index is below the block's index, the retry time becomes `now` + the new-block delay. Otherwise the retry time is kept. Only the tracker and the retry time change. |
| StateManager.ConsensusRedeliveryKeepsTracker | packages/chain/statemgr/action.go:69-92 | Delivering the same committee state a second time, at any later time, leaves the tracker as the first delivery left it. |
| StateManager.StoreSyncingData | packages/chain/statemgr/action.go:127-149 | With no anchor output, or state data that do not decode to a hash, the manager is unchanged. Otherwise the whole record is replaced with: synced = isSynced, the solid index, hash and timestamp, and the output index, ID, decoded hash and timestamp. Only the record changes. |
| StateManager.PublishedSyncedMeansHashesAgree | packages/chain/statemgr/action.go:139-148 | The published record says synced iff its solid hash and its output hash are equal. |
| RunVM.RunComputationsAsync | packages/vm/runvm/runtask.go:16-35 | An empty batch is rejected with "must be at least 1 request" before any task starts. A task starts iff the batch is non-empty and the transaction builder is created. The caller gets an error iff no task started. A started task calls OnFinish exactly once and never takes the zero-updates path, and it reports nil iff every collaborator step of the task succeeds. |
| RunVM.RunTask | packages/vm/runvm/runtask.go:38-122 | OnFinish is called exactly once. It gets nil iff every collaborator step succeeds on a non-empty batch; every early return passes an error, including the zero-updates path. A result block has one update per request, in request order, tagged with the request ID and timestamp, at the previous index + 1 (uint32). The state parameters carry that index, and the hash and timestamp of the previous state with the block applied. On success the block's updates are the reference fold `Prefix` started from the builder `createVMContext` prepared, and the result transaction is that fold's builder with the state parameters set, then built. |
| RunVM.NextStateIndex | packages/vm/runvm/runtask.go:85 | The next index is the previous one + 1, except that after 2^32 - 1 it wraps to 0. |
| RunVM.Prefix | packages/vm/runvm/runtask.go:54-72 | After `n` requests of the fold there are exactly `n` state updates. |
| RunVM.PrefixShape | packages/vm/runvm/runtask.go:54-72 | After `n` requests, update `i` carries request `i`'s ID and timestamp. The running timestamp is that of request `n`, and the running entropy is the hash iterated `n` times on the initial entropy. |
| RunVM.PrefixAppends | packages/vm/runvm/runtask.go:62 | Each request appends exactly one update and keeps the earlier ones. |
| RunVM.PrefixStable | packages/vm/runvm/runtask.go:54-63 | Later requests never rewrite the updates of earlier ones. |
| RunVM.PrefixLast | packages/vm/runvm/runtask.go:56-62 | Request `i`'s update holds the mutations its execution produced in its own context. |
| RunVM.PrefixEntropy | packages/vm/runvm/runtask.go:56-72 | Request `i` runs with timestamp `TimestampAt(T, i)` and with the entropy hashed `i` times. Its update in the final batch holds the mutations produced in that context. |
| RunVM.TimestampAtClosedForm | packages/vm/runvm/runtask.go:58-70 | With a batch timestamp T > 0, request `i` gets T + i. With T = 0, every request gets 0. |
| RunVM.TimestampAtIncreasing | packages/vm/runvm/runtask.go:65-70 | With a positive batch timestamp, later requests get strictly later timestamps. |
| Micropay.RevokeKey | packages/vm/examples/micropay/impl.go:188-190 | The revoke key is 40 bytes long: the service address followed by the ASCII bytes of "-revoke". |
| Micropay.KeyLayoutDisjoint | packages/vm/examples/micropay/impl.go:188-190 | A revoke key never equals any service key in a payer's map. Two revoke keys are equal iff their services are. |
| Micropay.GetWarrantInfoIntern | packages/vm/examples/micropay/impl.go:148-163 | An absent warrant or revoke entry reads as 0. A present one reads as its stored value. |
| Micropay.SetWarrant | packages/vm/examples/micropay/impl.go:165-168 | The pair's warrant then reads as the value set. The key registry is untouched. |
| Micropay.SetWarrantRevoke | packages/vm/examples/micropay/impl.go:170-173 | The pair's revoke deadline then reads as the deadline set. The key registry is untouched. |
| Micropay.DeleteWarrant | packages/vm/examples/micropay/impl.go:175-179 | Exactly the pair's two entries are removed from the payer map. The key registry is untouched. |
| Micropay.SetWarrantFrame | packages/vm/examples/micropay/impl.go:165-168 | Setting a warrant changes that (payer, service) warrant only. Its revoke entry and every other pair read as before. |
| Micropay.SetWarrantRevokeFrame | packages/vm/examples/micropay/impl.go:170-173 | Setting a revoke deadline changes that deadline only. |
| Micropay.DeleteWarrantFrame | packages/vm/examples/micropay/impl.go:175-179 | After deletion both entries of the pair read as 0, and every other pair reads as before. |
| Micropay.WrapInt64 | packages/vm/examples/micropay/impl.go:61 | Go's int64 addition: it is exact within range and congruent to the true sum modulo 2^64. |
| Micropay.Uint32Of | packages/vm/examples/micropay/impl.go:95 | Go's `uint32()` conversion keeps values that already fit, and otherwise gives the value congruent modulo 2^32. |
| Micropay.RevokeDeadline | packages/vm/examples/micropay/impl.go:192-194 | The stored deadline is the request timestamp plus the revoke period, rounded down to whole Unix seconds. |
| Micropay.PublicKey | packages/vm/examples/micropay/impl.go:24-39 | It succeeds iff the caller is an address, the key parameter is present and parses, and the address of the key is the caller's. It then stores the key bytes under that address. |
| Micropay.PublicKeyEnablesWarrant | packages/vm/examples/micropay/impl.go:24-71 | After the caller registers its public key, topping up a warrant succeeds iff the service is given, the incoming iotas are at least the minimum, no revoke is pending, and the accrue call succeeds. A missing key is no longer a reason to fail. |
| Micropay.AddWarrant | packages/vm/examples/micropay/impl.go:44-71 | It succeeds iff all of these hold: the caller is an address with a registered public key, the service is given, the incoming iotas are at least the minimum, no revoke is pending, and the accrue call succeeds. The warrant then becomes old + incoming (int64), with the revoke still 0. Other pairs and the key registry are untouched. The non-iota tokens accrue to the caller. |
| Micropay.AddWarrantExact | packages/vm/examples/micropay/impl.go:61 | Without int64 overflow, the warrant grows by exactly the incoming iotas. |
| Micropay.RevokeWarrant | packages/vm/examples/micropay/impl.go:77-103 | It succeeds iff the caller is an address, the service is given, the warrant is positive, no revoke is pending, and the post call succeeds. It stores the deadline in seconds and leaves the warrant, other pairs and the key registry alone. It posts `closeWarrant` time-locked to the deadline truncated to uint32. |
| Micropay.NoAddWhileRevoking | packages/vm/examples/micropay/impl.go:58-90 | After a successful revoke with a non-zero deadline, topping up the same warrant fails. |
| Micropay.CloseWarrant | packages/vm/examples/micropay/impl.go:108-122 | It succeeds iff the caller is the contract itself, both addresses are given, and a positive warrant's refund transfer succeeds. A positive warrant is refunded in full to the payer. Afterwards both entries are absent, and other pairs and the key registry are untouched. |
| Micropay.GetWarrantInfo | packages/vm/examples/micropay/impl.go:131-144 | The warrant field is present iff the warrant is > 0, and the revoked field iff the deadline is > 0. Each present field holds the stored value. |
| Micropay.WarrantLifecycle | packages/vm/examples/micropay/impl.go:44-122 | Add to an empty warrant, then revoke, then close: the refund is exactly the iotas added, and the warrant info is then empty. |
| KeyPair.CoinType | packages/wasmvm/wasmclient/go/wasmclient/iscclient/keypair.go:30-36 | The coin type is 4218 iff the HRP is "iota", 4219 iff it is "smr", and 1 for every other HRP. |
| KeyPair.DerivationPath | packages/wasmvm/wasmclient/go/wasmclient/iscclient/keypair.go:38 | The path is exactly [44, coinType, index, 0, 0]. |
| KeyPair.Harden | packages/wasmvm/wasmclient/go/wasmclient/iscclient/keypair.go:40 | `element \| 0x80000000` sets the top bit and keeps the low 31 bits, which adds 2^31 to an unhardened index. |
| KeyPair.ChildMessage | packages/wasmvm/wasmclient/go/wasmclient/iscclient/keypair.go:40-44 | The child HMAC message is 37 bytes: 0x00, then the 32-byte parent key, then 4 bytes that read back big-endian as the hardened element. |
| KeyPair.Split | packages/wasmvm/wasmclient/go/wasmclient/iscclient/keypair.go:26-47 | Key and chain code are the first and last 32 bytes of the HMAC output, and together they are the whole output. |
| KeyPair.SplitInjective | packages/wasmvm/wasmclient/go/wasmclient/iscclient/keypair.go:26-27 | The split loses nothing: equal splits come from equal HMAC outputs. |
| KeyPair.Master | packages/wasmvm/wasmclient/go/wasmclient/iscclient/keypair.go:24-28 | The master key and chain code together are the HMAC-SHA512 of the seed under the key "ed25519 seed". |
| KeyPair.Child | packages/wasmvm/wasmclient/go/wasmclient/iscclient/keypair.go:39-47 | The child key and chain code together are the HMAC-SHA512, under the parent chain code, of 0x00, the parent key and the big-endian hardened element. |
| KeyPair.DeriveAlongAppend | packages/wasmvm/wasmclient/go/wasmclient/iscclient/keypair.go:39-48 | Deriving along a concatenated path is deriving along each part in turn, so the loop is a fold over the path. |
| KeyPair.SubSeedLastStep | packages/wasmvm/wasmclient/go/wasmclient/iscclient/keypair.go:38-49 | The sub-seed is the first 32 bytes of an HMAC under the chain code left by the first four path elements. The message is 0x00, that key, and 0x80000000 in big-endian. |
| KeyPair.MakeSubSeed | packages/wasmvm/wasmclient/go/wasmclient/iscclient/keypair.go:19-50 | The loop yields the key of the fold of hardened child derivation over the path, starting from the master key HMAC-ed under "ed25519 seed". |
| KeyPair.KeyPairFromSeed | packages/wasmvm/wasmclient/go/wasmclient/iscclient/keypair.go:52-58 | It succeeds iff the seed is 32 bytes. The private key is ed25519's 64-byte key of the seed, and the public key is its last 32 bytes. |
| KeyPair.KeyPairFromSubSeed | packages/wasmvm/wasmclient/go/wasmclient/iscclient/keypair.go:60-63 | It equals KeyPairFromSeed applied to the sub-seed, which always succeeds. |
| KeyPair.Address | packages/wasmvm/wasmclient/go/wasmclient/iscclient/keypair.go:65-69 | The address is 33 bytes: the ed25519 type byte, then the blake2b-256 digest of the public key. |
| KeyPair.AddressDeterminedByDigest | packages/wasmvm/wasmclient/go/wasmclient/iscclient/keypair.go:65-69 | Two key pairs have the same address iff their public keys have the same digest. |
| KeyPair.AddressOfSeed | packages/wasmvm/wasmclient/go/wasmclient/iscclient/keypair.go:52-69 | The address of a seed's key pair is the type byte then the blake2b-256 digest of the last 32 bytes of its ed25519 private key. Two seeds whose private keys share those bytes have the same address. |
| Bytes.BigEndian32 | packages/wasmvm/wasmclient/go/wasmclient/iscclient/keypair.go:40 | The encoding is 4 bytes, the last being the value modulo 256, and it reads back big-endian as the same integer. |

## Left out

- Hashing and cryptography are uninterpreted function values with fixed output lengths: the state hash, `hashing.HashData`, HMAC-SHA512, ed25519, blake2b and `address.FromED25519PubKey`.
- Goroutines and event triggers (`go ...Trigger`, `go runTask`) are modelled as entries appended to an event log, and the started task's outcome is returned directly. Concurrency is not modelled.
- Logging calls are left out.
- `time.Now()` is the parameter `now`.
- StateManager.HashValueFromBytes: the hashing package is not part of this model. Its decoding rule is taken to be that exactly 32 bytes decode, to those bytes.
- `doSyncActionIfNeeded` and `approveIfRightOutput` are function-valued parameters. Their code is not part of this model.
- StateManager.AddBlockCandidate: the tracker's internals (`syncingBlocks`) are not part of this model. Its rule is stated abstractly: candidates keyed by (index, hash) with an approved flag, and a `refuses` predicate for the blocks it returns no candidate for. Nothing is assumed about which blocks it refuses.
- StateManager.TakeAction: nothing is assumed about the sync step, so the contract states only what holds for every sync step. The event order is proved under the assumption that the sync step appends no events.
- `createVMContext` is an opaque, possibly failing step that returns the transaction builder the VM context works with. The model assumes that the context otherwise gets its own copy of the previous state, the batch timestamp and the entropy; its code is not part of this model.
- `runTheRequest`, `ApplyStateUpdate`, `state.NewBlock`, `ApplyBatch`, `SetStateParams`, `Build` and `Properties` are opaque and possibly failing. Request-level failures are assumed to be inside the mutations.
- RunVM.RunTask: the int64 overflow of the per-request timestamp increment is not modelled. The timestamp is an unbounded integer, because a nanosecond timestamp cannot reach 2^63 within a batch.
- Determinism of the executor (same inputs give the same block) holds by construction: every member is a function of its inputs. It is not stated as a separate lemma.
- Micropay `initialize` returns nothing and is left out.
- Micropay: the KV encoding of the maps is left out. This covers `collections.Map` bookkeeping, `codec` int64 encoding and decoding errors, and `kvdecoder` parameter decoding. Values are stored already decoded, and a missing or malformed parameter is `None`.
- Micropay: `MinimumWarrantIotas` and `WarrantRevokePeriod` are fields of `Config`, because the file that defines them is not part of this model.
- Micropay: the parameter names (`ParamWarrant`, `ParamRevoked`, ...) are the `InfoField` datatype.
- Micropay: `accounts.Accrue`, `PostRequest` and `TransferToAddress` are recorded effects. Whether each succeeds is a boolean parameter.
- The event text of `addWarrant` is reduced to its four values.
- KeyPair: `HrpForClient` is a package-level variable, so here it is the parameter `hrp`. `ScAddressEd25519` is taken as 0, its value in the wasmlib type definitions, which are not part of this model. `GetPrivateKey`/`GetPublicKey` are the datatype's fields.
- KeyPair.Address: `wasmtypes.AddressFromBytes` only wraps the 33 bytes into an address value, so the address is the byte string itself; that package is not part of this model.

=== FILE: bytes.dfy ===
/** Byte strings and fixed-width unsigned integers as the Go sources use them. */
module Bytes {

  type byte = b: int | 0 <= b < 0x100

  type uint32 = x: int | 0 <= x < 0x1_0000_0000

  /** A 32-byte value: a hash digest, an ed25519 seed or public key, a chain code. */
  type Bytes32 = s: seq<byte> | |s| == 32 witness seq(32, _ => 0)

  /** A 64-byte value: an HMAC-SHA512 output or an ed25519 private key. */
  type Bytes64 = s: seq<byte> | |s| == 64 witness seq(64, _ => 0)

  /** A 32-byte hash digest (`hashing.HashValue`). */
  type Hash = Bytes32

  /** Addresses of the value-transfer ledger are 33 bytes long: a type byte
      followed by a 32-byte digest. */
  const AddressLength := 33

  /** The ASCII bytes of a string literal (Go's `[]byte("...")` on ASCII text). */
  function Ascii(s: string): (r: seq<byte>)
    requires forall i :: 0 <= i < |s| ==> s[i] as int < 0x80
    ensures |r| == |s|
    ensures forall i :: 0 <= i < |s| ==> r[i] == s[i] as int
  {
    seq(|s|, i requires 0 <= i < |s| => s[i] as int)
  }

  /** `binary.BigEndian.Uint32`, the reading direction. */
  function FromBigEndian32(b: seq<byte>): (v: uint32)
    requires |b| == 4
  {
    b[0] as int * 0x100_0000 + b[1] as int * 0x1_0000 + b[2] as int * 0x100 + b[3] as int
  }

  /** `binary.BigEndian.PutUint32`: most significant byte first; reading the
      four bytes back gives the same integer. */
  function BigEndian32(v: uint32): (r: seq<byte>)
    ensures |r| == 4
    ensures r[3] == v % 0x100
    ensures FromBigEndian32(r) == v
  {
    var r := [v / 0x100_0000, (v / 0x1_0000) % 0x100, (v / 0x100) % 0x100, v % 0x100];
    var q1 := v / 0x100;
    var q2 := q1 / 0x100;
    assert v == q1 * 0x100 + r[3];
    assert q1 == q2 * 0x100 + r[2];
    assert q2 == r[0] as int * 0x100 + r[1] as int;
    r
  }
}

=== FILE: keypair.dfy ===
/** Client key pairs derived from a master seed (iscclient/keypair.go):
    SLIP-0010 ed25519 master-key generation, hardened child derivation along
    the BIP-44-shaped path 44'/coin'/index'/0'/0', the ed25519 key pair of the
    resulting sub-seed, and the 33-byte address of its public key.
    HMAC-SHA512, ed25519 key generation and blake2b-256 are not modelled:
    they are uninterpreted functions with their fixed output lengths. */
module KeyPair {
  import opened Bytes
  import opened Outcomes

  /** The cryptographic primitives the derivation is built from. */
  datatype Primitives = Primitives(
    /** HMAC-SHA512 under `key` of `message`. */
    hmacSha512: (seq<byte>, seq<byte>) -> Bytes64,
    /** `ed25519.NewKeyFromSeed`: the 64-byte private key of a 32-byte seed. */
    ed25519FromSeed: Bytes32 -> Bytes64,
    /** `blake2b.Sum256`. */
    blake2b256: seq<byte> -> Bytes32)

  /** The type byte that leads an ed25519 address (`wasmtypes.ScAddressEd25519`). */
  const ScAddressEd25519: byte := 0

  /** SLIP-0044 coin types: IOTA mainnet, Shimmer, and the testnet default. */
  const CoinTypeIota: uint32 := 4218
  const CoinTypeShimmer: uint32 := 4219
  const CoinTypeTestnet: uint32 := 1

  /** The HMAC key of the SLIP-0010 master step for the ed25519 curve. */
  function MasterKeyLabel(): seq<byte>
  {
    Ascii("ed25519 seed")
  }

  /** A SLIP-0010 extended private key: the key proper and its chain code. */
  datatype ExtendedKey = ExtendedKey(key: Bytes32, chainCode: Bytes32)

  /** The 32/32 split of an HMAC output: the left half is the key, the right
      half the chain code. */
  function Split(h: Bytes64): (k: ExtendedKey)
    ensures k.key + k.chainCode == h
  {
    ExtendedKey(h[..32], h[32..])
  }

  /** Splitting is lossless: the two halves determine the HMAC output. */
  lemma SplitInjective(h1: Bytes64, h2: Bytes64)
    requires Split(h1) == Split(h2)
    ensures h1 == h2
  {
  }

  /** The coin type selected by the client's human-readable address prefix. */
  function CoinType(hrp: string): (c: uint32)
    ensures c == CoinTypeIota <==> hrp == "iota"
    ensures c == CoinTypeShimmer <==> hrp == "smr"
    ensures c == CoinTypeTestnet <==> hrp != "iota" && hrp != "smr"
  {
    match hrp
    case "iota" => CoinTypeIota
    case "smr" => CoinTypeShimmer
    case _ => CoinTypeTestnet
  }

  /** The derivation path 44'/coin'/index'/0'/0' before hardening. */
  function DerivationPath(hrp: string, index: uint32): (path: seq<uint32>)
    ensures |path| == 5
    ensures path[0] == 44 && path[1] == CoinType(hrp) && path[2] == index
    ensures path[3] == 0 && path[4] == 0
  {
    [44, CoinType(hrp), index, 0, 0]
  }

  /** `element | 0x80000000` on a uint32, written arithmetically: the low 31
      bits are kept and the top bit is set. */
  function Harden(element: uint32): (h: uint32)
    ensures h >= 0x8000_0000
    ensures h % 0x8000_0000 == element % 0x8000_0000
    ensures h == if element < 0x8000_0000 then element + 0x8000_0000 else element
  {
    element % 0x8000_0000 + 0x8000_0000
  }

  /** The message HMAC-ed for a hardened private child: 0x00, the parent
      key, and the hardened index in big-endian order. */
  function ChildMessage(parent: ExtendedKey, element: uint32): (m: seq<byte>)
    ensures |m| == 37
    ensures m[0] == 0 && m[1..33] == parent.key
    ensures FromBigEndian32(m[33..]) == Harden(element)
  {
    var m := [0 as byte] + parent.key + BigEndian32(Harden(element));
    assert m[33..] == BigEndian32(Harden(element));
    m
  }

  /** SLIP-0010 master key generation: HMAC the seed under "ed25519 seed". */
  function Master(p: Primitives, seed: seq<byte>): (k: ExtendedKey)
    ensures k.key + k.chainCode == p.hmacSha512(MasterKeyLabel(), seed)
  {
    Split(p.hmacSha512(MasterKeyLabel(), seed))
  }

  /** SLIP-0010 hardened private child derivation: HMAC the child message
      under the parent's chain code. */
  function Child(p: Primitives, parent: ExtendedKey, element: uint32): (k: ExtendedKey)
    ensures k.key + k.chainCode == p.hmacSha512(parent.chainCode, [0] + parent.key + BigEndian32(Harden(element)))
  {
    Split(p.hmacSha512(parent.chainCode, ChildMessage(parent, element)))
  }

  /** The fold of `Child` over a path, first element first. */
  function DeriveAlong(p: Primitives, k: ExtendedKey, path: seq<uint32>): ExtendedKey
    decreases |path|
  {
    if |path| == 0 then k else DeriveAlong(p, Child(p, k, path[0]), path[1..])
  }

  /** Deriving along a concatenated path is deriving along each part in turn. */
  lemma {:induction false} DeriveAlongAppend(p: Primitives, k: ExtendedKey, path1: seq<uint32>, path2: seq<uint32>)
    ensures DeriveAlong(p, k, path1 + path2) == DeriveAlong(p, DeriveAlong(p, k, path1), path2)
    decreases |path1|
  {
    if |path1| == 0 {
      assert path1 + path2 == path2;
    } else {
      assert (path1 + path2)[1..] == path1[1..] + path2;
      DeriveAlongAppend(p, Child(p, k, path1[0]), path1[1..], path2);
    }
  }

  /** The sub-seed of `seed` for account `index`. */
  function SubSeed(p: Primitives, hrp: string, seed: seq<byte>, index: uint32): Bytes32
  {
    DeriveAlong(p, Master(p, seed), DerivationPath(hrp, index)).key
  }

  /** The sub-seed is the key after the last path element, whose own
      derivation HMACs under the chain code of the four elements before it. */
  lemma SubSeedLastStep(p: Primitives, hrp: string, seed: seq<byte>, index: uint32)
    ensures var path := DerivationPath(hrp, index);
            var before := DeriveAlong(p, Master(p, seed), path[..4]);
            SubSeed(p, hrp, seed, index)
              == p.hmacSha512(before.chainCode, [0] + before.key + BigEndian32(0x8000_0000))[..32]
  {
    var path := DerivationPath(hrp, index);
    assert path == path[..4] + [path[4]];
    DeriveAlongAppend(p, Master(p, seed), path[..4], [path[4]]);
  }

  /** `MakeSubSeed`: the master step followed by a loop over the path that
      re-splits each HMAC output into key and chain code. */
  method MakeSubSeed(p: Primitives, hrp: string, seed: seq<byte>, index: uint32) returns (sub: Bytes32)
    ensures sub == SubSeed(p, hrp, seed, index)
  {
    var hash := p.hmacSha512(MasterKeyLabel(), seed);
    var key: Bytes32 := hash[..32];
    var chainCode: Bytes32 := hash[32..];
    var path := DerivationPath(hrp, index);
    for i := 0 to |path|
      invariant DeriveAlong(p, ExtendedKey(key, chainCode), path[i..])
             == DeriveAlong(p, Master(p, seed), path)
    {
      assert path[i..][1..] == path[i + 1..];
      var buf := BigEndian32(Harden(path[i]));
      hash := p.hmacSha512(chainCode, [0] + key + buf);
      key := hash[..32];
      chainCode := hash[32..];
    }
    assert path[|path|..] == [];
    sub := key;
  }

  /** A key pair; the public key is the tail of the private key. */
  datatype Keypair = Keypair(privateKey: Bytes64, publicKey: Bytes32)

  /** `KeyPairFromSeed`: ed25519 key generation; Go's `NewKeyFromSeed`
      panics unless the seed is exactly 32 bytes. */
  function KeyPairFromSeed(p: Primitives, seed: seq<byte>): (r: Result<Keypair>)
    ensures r.Ok? <==> |seed| == 32
    ensures r.Ok? ==> r.value.privateKey == p.ed25519FromSeed(seed)
    ensures r.Ok? ==> r.value.publicKey == r.value.privateKey[32..]
  {
    if |seed| != 32 then Err("ed25519: bad seed length")
    else
      var pair := p.ed25519FromSeed(seed);
      Ok(Keypair(pair, pair[32..]))
  }

  /** `KeyPairFromSubSeed`: the key pair of the derived sub-seed. */
  function KeyPairFromSubSeed(p: Primitives, hrp: string, seed: seq<byte>, index: uint32): (kp: Keypair)
    ensures Ok(kp) == KeyPairFromSeed(p, SubSeed(p, hrp, seed, index))
    ensures kp.publicKey == p.ed25519FromSeed(SubSeed(p, hrp, seed, index))[32..]
  {
    KeyPairFromSeed(p, SubSeed(p, hrp, seed, index)).value
  }

  /** `Keypair.Address`: the ed25519 type byte followed by the blake2b-256
      digest of the public key. */
  function Address(p: Primitives, kp: Keypair): (a: seq<byte>)
    ensures |a| == AddressLength
    ensures a[0] == ScAddressEd25519
    ensures a[1..] == p.blake2b256(kp.publicKey)
  {
    [ScAddressEd25519] + p.blake2b256(kp.publicKey)
  }

  /** Two key pairs share an address exactly when their public keys have the
      same digest. */
  lemma AddressDeterminedByDigest(p: Primitives, kp1: Keypair, kp2: Keypair)
    ensures Address(p, kp1) == Address(p, kp2)
        <==> p.blake2b256(kp1.publicKey) == p.blake2b256(kp2.publicKey)
  {
  }

  /** The address of a seed's key pair depends on the seed only through the
      public half of its ed25519 private key: seeds whose private keys share
      that half share the address. */
  lemma AddressOfSeed(p: Primitives, seed1: seq<byte>, seed2: seq<byte>)
    requires KeyPairFromSeed(p, seed1).Ok? && KeyPairFromSeed(p, seed2).Ok?
    requires p.ed25519FromSeed(seed1)[32..] == p.ed25519FromSeed(seed2)[32..]
    ensures Address(p, KeyPairFromSeed(p, seed1).value) == Address(p, KeyPairFromSeed(p, seed2).value)
    ensures Address(p, KeyPairFromSeed(p, seed1).value) == [ScAddressEd25519] + p.blake2b256(p.ed25519FromSeed(seed1)[32..])
  {
  }
}

=== FILE: micropay.dfy ===
/** The micropay example contract (vm/examples/micropay/impl.go): payers
    register their public key, lock iotas in a warrant per (payer, service),
    revoke a warrant with a deadline, and the contract closes the warrant by
    refunding it to the payer. Each entry point returns the new contract state
    and the calls it made into the sandbox, or the error that a failed
    `Require` panics with (the sandbox then discards every change). */
module Micropay {
  import opened Bytes
  import opened Outcomes

  type int64 = x: int | -0x8000_0000_0000_0000 <= x < 0x8000_0000_0000_0000

  type Address = a: seq<byte> | |a| == AddressLength witness seq(33, _ => 0)

  /** A caller: an address on the ledger, or a smart contract. */
  datatype AgentID = AddressAgent(addr: Address) | ContractAgent(contract: seq<byte>)

  /** Token colors: plain iotas, or a colored token. */
  datatype Color = IOTA | Colored(code: Bytes32)

  type Balances = map<Color, int64>

  /** The two constants of the contract's interface: the smallest warrant,
      and the revoke period in nanoseconds. */
  datatype Config = Config(minimumWarrantIotas: int64, warrantRevokePeriod: int64)

  /** Collaborators whose code is not part of this model. */
  datatype Sandbox = Sandbox(
    /** `ed25519.PublicKeyFromBytes`: `None` when the bytes do not parse. */
    parsePublicKey: seq<byte> -> Option<Bytes32>,
    /** `address.FromED25519PubKey`. */
    addressOf: Bytes32 -> Address,
    /** Whether `accounts.Accrue`, `PostRequest` and `TransferToAddress` succeed. */
    accrueOk: bool,
    postOk: bool,
    transferOk: bool)

  /** The contract's state: the public-key registry, and the per-payer maps
      flattened into one map keyed by (payer, element key). */
  datatype State = State(publicKeys: map<Address, seq<byte>>, payerInfo: map<(Address, seq<byte>), int64>)

  /** The calls an entry point makes into the sandbox. */
  datatype Effect =
    | Accrue(agent: AgentID, tokens: Balances)
    | TransferToAddress(addr: Address, iotas: int64)
    | PostCloseWarrant(payer: Address, service: Address, timeLock: uint32)
    | WarrantIncreased(payer: Address, before: int64, after: int64, service: Address)

  /** The request parameters; an absent one makes `MustGet...` fail. */
  datatype Params = Params(publicKey: Option<seq<byte>>, serviceAddress: Option<Address>, payerAddress: Option<Address>)

  /** An entry-point call: caller, own contract ID, parameters, the tokens
      sent along, and the request timestamp in Unix nanoseconds. */
  datatype Call = Call(caller: AgentID, self: seq<byte>, params: Params, incoming: Balances, timestamp: int64)

  datatype Reply = Reply(state: State, effects: seq<Effect>)

  /** The fields of `getWarrantInfo`'s result. */
  datatype InfoField = Warrant | Revoked

  // ----- key layout -----

  /** The element key of the warrant for a service: the address bytes. */
  function ServiceKey(service: Address): seq<byte>
  {
    service
  }

  /** `getRevokeKey`: the service address followed by "-revoke". */
  function RevokeKey(service: Address): (k: seq<byte>)
    ensures |k| == AddressLength + 7
    ensures k[..AddressLength] == service
    ensures k[AddressLength..] == Ascii("-revoke")
  {
    service + Ascii("-revoke")
  }

  /** Within a payer's map, a revoke key never collides with a warrant key,
      and distinct services have distinct revoke keys. */
  lemma KeyLayoutDisjoint(s1: Address, s2: Address)
    ensures RevokeKey(s1) != ServiceKey(s2)
    ensures RevokeKey(s1) == RevokeKey(s2) <==> s1 == s2
  {
  }

  // ----- storage helpers -----

  /** `getWarrantInfoIntern`: the warrant and the revoke deadline of
      (payer, service); an absent entry reads as 0. */
  function GetWarrantInfoIntern(s: State, payer: Address, service: Address): (r: (int64, int64))
    ensures (payer, ServiceKey(service)) !in s.payerInfo ==> r.0 == 0
    ensures (payer, ServiceKey(service)) in s.payerInfo ==> r.0 == s.payerInfo[(payer, ServiceKey(service))]
    ensures (payer, RevokeKey(service)) !in s.payerInfo ==> r.1 == 0
    ensures (payer, RevokeKey(service)) in s.payerInfo ==> r.1 == s.payerInfo[(payer, RevokeKey(service))]
  {
    var w := if (payer, ServiceKey(service)) in s.payerInfo then s.payerInfo[(payer, ServiceKey(service))] else 0;
    var r := if (payer, RevokeKey(service)) in s.payerInfo then s.payerInfo[(payer, RevokeKey(service))] else 0;
    (w, r)
  }

  /** `setWarrant`. */
  function SetWarrant(s: State, payer: Address, service: Address, value: int64): (r: State)
    ensures GetWarrantInfoIntern(r, payer, service).0 == value
    ensures r.publicKeys == s.publicKeys
  {
    s.(payerInfo := s.payerInfo[(payer, ServiceKey(service)) := value])
  }

  /** `setWarrantRevoke`. */
  function SetWarrantRevoke(s: State, payer: Address, service: Address, deadline: int64): (r: State)
    ensures GetWarrantInfoIntern(r, payer, service).1 == deadline
    ensures r.publicKeys == s.publicKeys
  {
    s.(payerInfo := s.payerInfo[(payer, RevokeKey(service)) := deadline])
  }

  /** `deleteWarrant`: remove both entries of (payer, service). */
  function DeleteWarrant(s: State, payer: Address, service: Address): (r: State)
    ensures (payer, ServiceKey(service)) !in r.payerInfo && (payer, RevokeKey(service)) !in r.payerInfo
    ensures r.payerInfo.Keys == s.payerInfo.Keys - {(payer, ServiceKey(service)), (payer, RevokeKey(service))}
    ensures r.publicKeys == s.publicKeys
  {
    s.(payerInfo := s.payerInfo - {(payer, ServiceKey(service)), (payer, RevokeKey(service))})
  }

  /** Setting a warrant changes that warrant only. */
  lemma SetWarrantFrame(s: State, payer: Address, service: Address, value: int64, p: Address, sv: Address)
    ensures GetWarrantInfoIntern(SetWarrant(s, payer, service, value), p, sv)
         == if (p, sv) == (payer, service) then (value, GetWarrantInfoIntern(s, p, sv).1)
            else GetWarrantInfoIntern(s, p, sv)
  {
  }

  /** Setting a revoke deadline changes that deadline only. */
  lemma SetWarrantRevokeFrame(s: State, payer: Address, service: Address, deadline: int64, p: Address, sv: Address)
    ensures GetWarrantInfoIntern(SetWarrantRevoke(s, payer, service, deadline), p, sv)
         == if (p, sv) == (payer, service) then (GetWarrantInfoIntern(s, p, sv).0, deadline)
            else GetWarrantInfoIntern(s, p, sv)
  {
  }

  /** Deleting a warrant makes both of its entries read as 0 and leaves every
      other (payer, service) pair alone. */
  lemma DeleteWarrantFrame(s: State, payer: Address, service: Address, p: Address, sv: Address)
    ensures GetWarrantInfoIntern(DeleteWarrant(s, payer, service), p, sv)
         == if (p, sv) == (payer, service) then (0, 0) else GetWarrantInfoIntern(s, p, sv)
  {
  }

  // ----- arithmetic of the source's integer types -----

  /** Go's int64 addition, which wraps around. */
  function WrapInt64(x: int): (r: int64)
    ensures -0x8000_0000_0000_0000 <= x < 0x8000_0000_0000_0000 ==> r == x
    ensures (r - x) % 0x1_0000_0000_0000_0000 == 0
  {
    (x + 0x8000_0000_0000_0000) % 0x1_0000_0000_0000_0000 - 0x8000_0000_0000_0000
  }

  /** Go's `uint32(x)` on an int64: the low 32 bits. */
  function Uint32Of(x: int): (r: uint32)
    ensures 0 <= x < 0x1_0000_0000 ==> r == x
    ensures (r - x) % 0x1_0000_0000 == 0
  {
    x % 0x1_0000_0000
  }

  /** `getRevokeDeadline(nowis).Unix()`: the time `WarrantRevokePeriod` after
      the request timestamp, rounded down to whole Unix seconds. */
  function RevokeDeadline(cfg: Config, nowNs: int64): (sec: int64)
    ensures sec * 1_000_000_000 <= nowNs + cfg.warrantRevokePeriod < (sec + 1) * 1_000_000_000
  {
    var ns := nowNs + cfg.warrantRevokePeriod;
    var sec := ns / 1_000_000_000;
    assert -0x1_0000_0000_0000_0000 <= ns < 0x1_0000_0000_0000_0000;
    sec
  }

  /** The iotas among the incoming tokens. */
  function IotasOf(b: Balances): int64
  {
    if IOTA in b then b[IOTA] else 0
  }

  // ----- entry points -----

  /** `publicKey`: register the caller's public key, which must belong to the
      caller's address. */
  function PublicKey(sb: Sandbox, s: State, call: Call): (r: Result<Reply>)
    ensures r.Ok? <==>
              && call.caller.AddressAgent?
              && call.params.publicKey.Some?
              && sb.parsePublicKey(call.params.publicKey.value).Some?
              && sb.addressOf(sb.parsePublicKey(call.params.publicKey.value).value) == call.caller.addr
    ensures r.Ok? ==>
              && r.value.state == s.(publicKeys := s.publicKeys[call.caller.addr := call.params.publicKey.value])
              && r.value.effects == []
  {
    if !call.caller.AddressAgent? then Err("micropay.publicKey: caller must be an address")
    else if call.params.publicKey.None? then Err("missing parameter: public key")
    else
      var pubKeyBin := call.params.publicKey.value;
      var pubKey := sb.parsePublicKey(pubKeyBin);
      if pubKey.None? then Err("invalid public key")
      else
        var addr := sb.addressOf(pubKey.value);
        if addr != call.caller.addr then Err("public key does not correspond to the caller's address")
        else Ok(Reply(s.(publicKeys := s.publicKeys[addr := pubKeyBin]), []))
  }

  /** `addWarrant`: add the incoming iotas to the caller's warrant for the
      service; the other tokens accrue to the caller on chain. */
  function AddWarrant(cfg: Config, sb: Sandbox, s: State, call: Call): (r: Result<Reply>)
    ensures r.Ok? <==>
              && call.caller.AddressAgent?
              && call.caller.addr in s.publicKeys
              && call.params.serviceAddress.Some?
              && IotasOf(call.incoming) >= cfg.minimumWarrantIotas
              && GetWarrantInfoIntern(s, call.caller.addr, call.params.serviceAddress.value).1 == 0
              && sb.accrueOk
    ensures r.Ok? ==>
              var payer := call.caller.addr;
              var service := call.params.serviceAddress.value;
              var before := GetWarrantInfoIntern(s, payer, service).0;
              && GetWarrantInfoIntern(r.value.state, payer, service)
                   == (WrapInt64(before + IotasOf(call.incoming)), 0)
              && (forall p: Address, sv: Address :: (p, sv) != (payer, service) ==>
                    GetWarrantInfoIntern(r.value.state, p, sv) == GetWarrantInfoIntern(s, p, sv))
              && r.value.state.publicKeys == s.publicKeys
              && r.value.effects == [Accrue(call.caller, call.incoming - {IOTA}),
                                     WarrantIncreased(payer, before, WrapInt64(before + IotasOf(call.incoming)), service)]
  {
    if !call.caller.AddressAgent? then Err("payer must be an address")
    else
      var payer := call.caller.addr;
      if payer !in s.publicKeys then Err("unknown public key for the payer's address")
      else if call.params.serviceAddress.None? then Err("missing parameter: service address")
      else
        var service := call.params.serviceAddress.value;
        var amount := IotasOf(call.incoming);
        if amount < cfg.minimumWarrantIotas then Err("warrant must be larger than the minimum")
        else
          var (warrant, revoke) := GetWarrantInfoIntern(s, payer, service);
          if revoke != 0 then Err("warrant is being revoked")
          else
            var increased := WrapInt64(warrant + amount);
            var s' := SetWarrant(s, payer, service, increased);
            if !sb.accrueOk then Err("accrue failed")
            else
              assert forall p: Address, sv: Address :: (p, sv) != (payer, service) ==>
                GetWarrantInfoIntern(s', p, sv) == GetWarrantInfoIntern(s, p, sv) by {
                forall p: Address, sv: Address {
                  SetWarrantFrame(s, payer, service, increased, p, sv);
                }
              }
              SetWarrantFrame(s, payer, service, increased, payer, service);
              Ok(Reply(s', [Accrue(call.caller, call.incoming - {IOTA}),
                            WarrantIncreased(payer, warrant, increased, service)]))
  }

  /** `revokeWarrant`: record the revoke deadline of an existing, not yet
      revoked warrant and post the time-locked `closeWarrant` request to self. */
  function RevokeWarrant(cfg: Config, sb: Sandbox, s: State, call: Call): (r: Result<Reply>)
    ensures r.Ok? <==>
              && call.caller.AddressAgent?
              && call.params.serviceAddress.Some?
              && GetWarrantInfoIntern(s, call.caller.addr, call.params.serviceAddress.value).0 > 0
              && GetWarrantInfoIntern(s, call.caller.addr, call.params.serviceAddress.value).1 == 0
              && sb.postOk
    ensures r.Ok? ==>
              var payer := call.caller.addr;
              var service := call.params.serviceAddress.value;
              var deadline := RevokeDeadline(cfg, call.timestamp);
              && GetWarrantInfoIntern(r.value.state, payer, service)
                   == (GetWarrantInfoIntern(s, payer, service).0, deadline)
              && (forall p: Address, sv: Address :: (p, sv) != (payer, service) ==>
                    GetWarrantInfoIntern(r.value.state, p, sv) == GetWarrantInfoIntern(s, p, sv))
              && r.value.effects == [PostCloseWarrant(payer, service, Uint32Of(deadline))]
              && r.value.state.publicKeys == s.publicKeys
  {
    if !call.caller.AddressAgent? then Err("payer must be an address")
    else if call.params.serviceAddress.None? then Err("missing parameter: service address")
    else
      var payer := call.caller.addr;
      var service := call.params.serviceAddress.value;
      var (w, rv) := GetWarrantInfoIntern(s, payer, service);
      if w <= 0 then Err("warrant does not exist")
      else if rv != 0 then Err("warrant is already being revoked")
      else
        var deadline := RevokeDeadline(cfg, call.timestamp);
        var s' := SetWarrantRevoke(s, payer, service, deadline);
        if !sb.postOk then Err("failed to post time-locked 'closeWarrant' request to self")
        else
          assert forall p: Address, sv: Address :: (p, sv) != (payer, service) ==>
            GetWarrantInfoIntern(s', p, sv) == GetWarrantInfoIntern(s, p, sv) by {
            forall p: Address, sv: Address {
              SetWarrantRevokeFrame(s, payer, service, deadline, p, sv);
            }
          }
          SetWarrantRevokeFrame(s, payer, service, deadline, payer, service);
          Ok(Reply(s', [PostCloseWarrant(payer, service, Uint32Of(deadline))]))
  }

  /** `closeWarrant`: accepted only from the contract itself; refunds a
      positive warrant to the payer and deletes the warrant's entries. */
  function CloseWarrant(sb: Sandbox, s: State, call: Call): (r: Result<Reply>)
    ensures r.Ok? <==>
              && call.caller == ContractAgent(call.self)
              && call.params.payerAddress.Some?
              && call.params.serviceAddress.Some?
              && (GetWarrantInfoIntern(s, call.params.payerAddress.value, call.params.serviceAddress.value).0 > 0
                  ==> sb.transferOk)
    ensures r.Ok? ==>
              var payer := call.params.payerAddress.value;
              var service := call.params.serviceAddress.value;
              var warrant := GetWarrantInfoIntern(s, payer, service).0;
              && GetWarrantInfoIntern(r.value.state, payer, service) == (0, 0)
              && (payer, ServiceKey(service)) !in r.value.state.payerInfo
              && (payer, RevokeKey(service)) !in r.value.state.payerInfo
              && (forall p: Address, sv: Address :: (p, sv) != (payer, service) ==>
                    GetWarrantInfoIntern(r.value.state, p, sv) == GetWarrantInfoIntern(s, p, sv))
              && r.value.effects == (if warrant > 0 then [TransferToAddress(payer, warrant)] else [])
              && r.value.state.publicKeys == s.publicKeys
  {
    if call.caller != ContractAgent(call.self) then Err("caller must be self")
    else if call.params.payerAddress.None? then Err("missing parameter: payer address")
    else if call.params.serviceAddress.None? then Err("missing parameter: service address")
    else
      var payer := call.params.payerAddress.value;
      var service := call.params.serviceAddress.value;
      var (warrant, _) := GetWarrantInfoIntern(s, payer, service);
      if warrant > 0 && !sb.transferOk then Err("failed to send iotas to the payer")
      else
        var s' := DeleteWarrant(s, payer, service);
        assert forall p: Address, sv: Address :: (p, sv) != (payer, service) ==>
          GetWarrantInfoIntern(s', p, sv) == GetWarrantInfoIntern(s, p, sv) by {
          forall p: Address, sv: Address {
            DeleteWarrantFrame(s, payer, service, p, sv);
          }
        }
        DeleteWarrantFrame(s, payer, service, payer, service);
        Ok(Reply(s', if warrant > 0 then [TransferToAddress(payer, warrant)] else []))
  }

  /** `getWarrantInfo`: the warrant and revoke deadline of (payer, service),
      each present in the result only when positive. */
  function GetWarrantInfo(s: State, params: Params): (r: Result<map<InfoField, int64>>)
    ensures r.Ok? <==> params.payerAddress.Some? && params.serviceAddress.Some?
    ensures r.Ok? ==>
              var (w, rv) := GetWarrantInfoIntern(s, params.payerAddress.value, params.serviceAddress.value);
              && (Warrant in r.value <==> w > 0)
              && (Warrant in r.value ==> r.value[Warrant] == w)
              && (Revoked in r.value <==> rv > 0)
              && (Revoked in r.value ==> r.value[Revoked] == rv)
  {
    if params.payerAddress.None? then Err("missing parameter: payer address")
    else if params.serviceAddress.None? then Err("missing parameter: service address")
    else
      var (w, rv) := GetWarrantInfoIntern(s, params.payerAddress.value, params.serviceAddress.value);
      var withWarrant: map<InfoField, int64> := if w > 0 then map[Warrant := w] else map[];
      Ok(if rv > 0 then withWarrant[Revoked := rv] else withWarrant)
  }

  // ----- properties across entry points -----

  /** The warrant grows by exactly the incoming iotas unless the int64 sum
      overflows. */
  lemma AddWarrantExact(cfg: Config, sb: Sandbox, s: State, call: Call)
    requires AddWarrant(cfg, sb, s, call).Ok?
    requires var sum := GetWarrantInfoIntern(s, call.caller.addr, call.params.serviceAddress.value).0 + IotasOf(call.incoming);
             -0x8000_0000_0000_0000 <= sum < 0x8000_0000_0000_0000
    ensures GetWarrantInfoIntern(AddWarrant(cfg, sb, s, call).value.state, call.caller.addr, call.params.serviceAddress.value).0
         == GetWarrantInfoIntern(s, call.caller.addr, call.params.serviceAddress.value).0 + IotasOf(call.incoming)
  {
  }

  /** After the caller registers its public key, topping up a warrant no
      longer fails for an unknown key: it then fails only for a missing
      service, too few iotas, a pending revoke, or a failed accrue. */
  lemma PublicKeyEnablesWarrant(cfg: Config, sb: Sandbox, s: State, register: Call, add: Call)
    requires PublicKey(sb, s, register).Ok?
    requires add.caller == register.caller
    ensures var s' := PublicKey(sb, s, register).value.state;
            AddWarrant(cfg, sb, s', add).Ok? <==>
              && add.params.serviceAddress.Some?
              && IotasOf(add.incoming) >= cfg.minimumWarrantIotas
              && GetWarrantInfoIntern(s, add.caller.addr, add.params.serviceAddress.value).1 == 0
              && sb.accrueOk
  {
  }

  /** Once a warrant is being revoked (with a non-zero deadline), it cannot
      be topped up. */
  lemma NoAddWhileRevoking(cfg: Config, sb: Sandbox, s: State, call: Call, add: Call)
    requires RevokeWarrant(cfg, sb, s, call).Ok?
    requires RevokeDeadline(cfg, call.timestamp) != 0
    requires add.caller == call.caller && add.params.serviceAddress == call.params.serviceAddress
    ensures AddWarrant(cfg, sb, RevokeWarrant(cfg, sb, s, call).value.state, add).Err?
  {
  }

  /** A warrant goes through its life: topped up from nothing, revoked, and
      closed by the contract; the refund is exactly what was put in, and
      afterwards the warrant reads as absent. */
  lemma WarrantLifecycle(cfg: Config, sb: Sandbox, s: State, add: Call, close: Call)
    requires AddWarrant(cfg, sb, s, add).Ok?
    requires GetWarrantInfoIntern(s, add.caller.addr, add.params.serviceAddress.value) == (0, 0)
    requires IotasOf(add.incoming) > 0
    requires var revoked := RevokeWarrant(cfg, sb, AddWarrant(cfg, sb, s, add).value.state, add);
             && revoked.Ok?
             && close.caller == ContractAgent(close.self)
             && close.params.payerAddress == Some(add.caller.addr)
             && close.params.serviceAddress == add.params.serviceAddress
             && CloseWarrant(sb, revoked.value.state, close).Ok?
    ensures var revoked := RevokeWarrant(cfg, sb, AddWarrant(cfg, sb, s, add).value.state, add);
            var closed := CloseWarrant(sb, revoked.value.state, close).value;
            && closed.effects == [TransferToAddress(add.caller.addr, IotasOf(add.incoming))]
            && GetWarrantInfo(closed.state, close.params) == Ok(map[])
  {
  }
}

=== FILE: outcomes.dfy ===
/** Failure-carrying wrappers shared by every module of the model.
    A Go `nil` pointer becomes `None`; a Go `error` return or a sandbox
    `Require` panic becomes `Err` carrying the message. */
module Outcomes {

  datatype Option<+T> = None | Some(value: T)

  datatype Result<+T> = Ok(value: T) | Err(msg: string)
}

=== FILE: runtask.dfy ===
/** The deterministic batch executor (runvm/runtask.go): it folds an ordered
    batch of requests into one state update per request, builds the block at
    the next state index, and finalises the anchoring transaction with the
    hash of the previous state with the block applied. Per-request execution,
    state application, hashing and the transaction builder are opaque
    collaborators, passed in as a `Machinery` record; each of them that can
    fail in the source returns an error here. */
module RunVM {
  import opened Bytes
  import opened Outcomes

  type RequestID = seq<byte>

  /** A reference to a request of the batch; only its identity matters here. */
  datatype Request = Request(id: RequestID)

  /** Key/value changes made by one request: `None` deletes the key. */
  type Mutations = map<seq<byte>, Option<seq<byte>>>

  /** The state update of one request, tagged with its ID and timestamp. */
  datatype StateUpdate = StateUpdate(requestID: RequestID, timestamp: int, mutations: Mutations)

  /** The chain's virtual state: its block index, timestamp and variables. */
  datatype VirtualState = VirtualState(index: uint32, timestamp: int, variables: map<seq<byte>, seq<byte>>)

  /** A block: the batch's state updates in request order and the state index
      it produces. */
  datatype Block = Block(updates: seq<StateUpdate>, stateIndex: uint32)

  /** The state parameters recorded in the anchoring transaction. */
  datatype StateParams = StateParams(stateIndex: uint32, stateHash: Hash, timestamp: int)

  /** The transaction builder; its token bookkeeping is opaque. */
  datatype TxBuilder = TxBuilder(movements: seq<seq<byte>>)

  datatype Transaction = Transaction(essence: seq<byte>)

  /** What a request's execution sees: the running state, the builder, the
      request, and its timestamp and entropy. */
  datatype RequestContext = RequestContext(state: VirtualState, txb: TxBuilder, request: Request, timestamp: int, entropy: Hash)

  /** What a request's execution produces: its mutations and the builder with
      its token movements added. Request-level failures are recorded in the
      mutations and never abort the batch. */
  datatype RequestResult = RequestResult(mutations: Mutations, txb: TxBuilder)

  /** A VM task: chain, balances, the ordered batch, batch timestamp and
      entropy, and the previous state. */
  datatype Task = Task(
    chainID: seq<byte>,
    balances: map<seq<byte>, int>,
    requests: seq<Request>,
    timestamp: int,
    entropy: Hash,
    state: VirtualState)

  /** The opaque collaborators of the executor. */
  datatype Machinery = Machinery(
    /** `txbuilder.NewFromAddressBalances`. */
    newTxBuilder: (seq<byte>, map<seq<byte>, int>) -> Result<TxBuilder>,
    /** `createVMContext`: moves the smart contract's token and the requests'
      tokens in the builder, or fails. */
    createVMContext: (Task, TxBuilder) -> Result<TxBuilder>,
    /** `runTheRequest`. */
    runRequest: RequestContext -> RequestResult,
    /** `VirtualState.ApplyStateUpdate`. */
    applyUpdate: (VirtualState, StateUpdate) -> VirtualState,
    /** The validity check of `state.NewBlock`: `Some(message)` when it fails. */
    newBlockCheck: seq<StateUpdate> -> Option<string>,
    /** `VirtualState.ApplyBatch` on a clone. */
    applyBlock: (VirtualState, Block) -> Result<VirtualState>,
    /** `VirtualState.Hash`. */
    stateHash: VirtualState -> Hash,
    /** `hashing.HashData` on a 32-byte value. */
    hashData: Hash -> Hash,
    /** `TxBuilder.SetStateParams`. */
    setStateParams: (TxBuilder, StateParams) -> Result<TxBuilder>,
    /** `TxBuilder.Build`. */
    build: TxBuilder -> Result<Transaction>,
    /** `Transaction.Properties`, the semantic check: `Some(message)` when it fails. */
    properties: Transaction -> Option<string>)

  const EmptyBatchError := "must be at least 1 request"
  const NoUpdatesError := "RunVM: no state updates were produced"

  // ----- the per-request fold, as a reference definition -----

  /** The timestamp after one request: a non-zero timestamp advances by one
      nanosecond, a zero timestamp stays zero. */
  function NextTimestamp(ts: int): int
  {
    if ts != 0 then ts + 1 else 0
  }

  /** The timestamp seen by request `i` (0-based) of a batch with timestamp `t`. */
  function TimestampAt(t: int, i: nat): int
  {
    if i == 0 then t else NextTimestamp(TimestampAt(t, i - 1))
  }

  /** A positive batch timestamp gives request `i` the timestamp `t + i`; a
      zero one gives every request zero. */
  lemma {:induction false} TimestampAtClosedForm(t: int, i: nat)
    requires t >= 0
    ensures TimestampAt(t, i) == if t == 0 then 0 else t + i
  {
    if i > 0 {
      TimestampAtClosedForm(t, i - 1);
    }
  }

  /** Later requests of a positive-timestamp batch get strictly later timestamps. */
  lemma TimestampAtIncreasing(t: int, i: nat, j: nat)
    requires t > 0 && i < j
    ensures TimestampAt(t, i) < TimestampAt(t, j)
  {
    TimestampAtClosedForm(t, i);
    TimestampAtClosedForm(t, j);
  }

  /** `h` applied `k` times. */
  function Iterate(h: Hash -> Hash, e: Hash, k: nat): Hash
  {
    if k == 0 then e else h(Iterate(h, e, k - 1))
  }

  /** The executor's running variables after some prefix of the batch. */
  datatype ExecState = ExecState(
    state: VirtualState,
    txb: TxBuilder,
    timestamp: int,
    entropy: Hash,
    updates: seq<StateUpdate>)

  /** One iteration of the request loop. */
  function Step(m: Machinery, s: ExecState, req: Request): ExecState
  {
    var r := m.runRequest(RequestContext(s.state, s.txb, req, s.timestamp, s.entropy));
    var upd := StateUpdate(req.id, s.timestamp, r.mutations);
    ExecState(m.applyUpdate(s.state, upd), r.txb, NextTimestamp(s.timestamp), m.hashData(s.entropy), s.updates + [upd])
  }

  /** The loop's variables after the first `n` requests. */
  function Prefix(m: Machinery, task: Task, txb: TxBuilder, n: nat): (s: ExecState)
    requires n <= |task.requests|
    ensures |s.updates| == n
  {
    if n == 0 then ExecState(task.state, txb, task.timestamp, task.entropy, [])
    else Step(m, Prefix(m, task, txb, n - 1), task.requests[n - 1])
  }

  /** After `n` requests there are `n` updates, the i-th tagged with the i-th
      request's ID and timestamp; the running timestamp and entropy are those
      of request `n`. */
  lemma {:induction false} PrefixShape(m: Machinery, task: Task, txb: TxBuilder, n: nat)
    requires n <= |task.requests|
    ensures var s := Prefix(m, task, txb, n);
            && |s.updates| == n
            && s.timestamp == TimestampAt(task.timestamp, n)
            && s.entropy == Iterate(m.hashData, task.entropy, n)
            && forall i :: 0 <= i < n ==>
                 && s.updates[i].requestID == task.requests[i].id
                 && s.updates[i].timestamp == TimestampAt(task.timestamp, i)
  {
    if n > 0 {
      PrefixShape(m, task, txb, n - 1);
    }
  }

  /** One more request appends exactly one update. */
  lemma PrefixAppends(m: Machinery, task: Task, txb: TxBuilder, n: nat)
    requires 0 < n <= |task.requests|
    ensures Prefix(m, task, txb, n).updates[..n - 1] == Prefix(m, task, txb, n - 1).updates
  {
  }

  /** Later iterations never rewrite earlier updates. */
  lemma {:induction false} PrefixStable(m: Machinery, task: Task, txb: TxBuilder, j: nat, n: nat)
    requires j <= n <= |task.requests|
    ensures Prefix(m, task, txb, n).updates[..j] == Prefix(m, task, txb, j).updates
    decreases n
  {
    if j < n {
      PrefixStable(m, task, txb, j, n - 1);
      PrefixAppends(m, task, txb, n);
      var a := Prefix(m, task, txb, n).updates;
      assert a[..j] == a[..n - 1][..j];
    } else {
      assert Prefix(m, task, txb, n).updates[..j] == Prefix(m, task, txb, n).updates;
    }
  }

  /** The context request `i` runs in: the state and builder after the
      requests before it, and its own timestamp and entropy. */
  function ContextOf(m: Machinery, task: Task, txb: TxBuilder, i: nat): RequestContext
    requires i < |task.requests|
  {
    var before := Prefix(m, task, txb, i);
    RequestContext(before.state, before.txb, task.requests[i], before.timestamp, before.entropy)
  }

  /** Request `i`'s update holds the mutations produced in its context. */
  lemma PrefixLast(m: Machinery, task: Task, txb: TxBuilder, i: nat)
    requires i < |task.requests|
    ensures Prefix(m, task, txb, i + 1).updates[i].mutations == m.runRequest(ContextOf(m, task, txb, i)).mutations
  {
  }

  /** The mutations of request `i` are what its execution produced on the
      state after the requests before it, with entropy hashed `i` times. */
  lemma PrefixEntropy(m: Machinery, task: Task, txb: TxBuilder, i: nat, n: nat)
    requires i < n <= |task.requests|
    ensures ContextOf(m, task, txb, i).timestamp == TimestampAt(task.timestamp, i)
    ensures ContextOf(m, task, txb, i).entropy == Iterate(m.hashData, task.entropy, i)
    ensures Prefix(m, task, txb, n).updates[i].mutations == m.runRequest(ContextOf(m, task, txb, i)).mutations
  {
  }

  // ----- the task -----

  /** What the task leaves behind: every `OnFinish` argument in call order,
      and the result block, transaction and state parameters it recorded. */
  datatype TaskOutcome = TaskOutcome(
    onFinish: seq<Option<string>>,
    resultBlock: Option<Block>,
    resultTx: Option<Transaction>,
    stateParams: Option<StateParams>)

  /** `StateIndex() + 1` on a uint32 state index, which wraps around. */
  function NextStateIndex(i: uint32): (r: uint32)
    ensures i < 0xFFFF_FFFF ==> r == i + 1
    ensures i == 0xFFFF_FFFF ==> r == 0
  {
    (i + 1) % 0x1_0000_0000
  }

  /** The builder the request loop starts from: the one `createVMContext`
      prepared. */
  function ContextBuilder(m: Machinery, task: Task, txb: TxBuilder): TxBuilder
    requires m.createVMContext(task, txb).Ok?
  {
    m.createVMContext(task, txb).value
  }

  /** Every collaborator the task depends on succeeds on this batch. */
  predicate TaskSucceeds(m: Machinery, task: Task, txb: TxBuilder)
  {
    && m.createVMContext(task, txb).Ok?
    && |task.requests| > 0
    && var s := Prefix(m, task, ContextBuilder(m, task, txb), |task.requests|);
       && m.newBlockCheck(s.updates).None?
       && var block := Block(s.updates, NextStateIndex(task.state.index));
          && m.applyBlock(task.state, block).Ok?
          && var params := StateParams(NextStateIndex(task.state.index),
                                       m.stateHash(m.applyBlock(task.state, block).value),
                                       m.applyBlock(task.state, block).value.timestamp);
             && m.setStateParams(s.txb, params).Ok?
             && m.build(m.setStateParams(s.txb, params).value).Ok?
             && m.properties(m.build(m.setStateParams(s.txb, params).value).value).None?
  }

  /** `runTask`: run the batch on the VM context, then build the block, hash
      the previous state with the block applied on a clone, and finalise the
      transaction. Every path calls `OnFinish` exactly once. */
  method RunTask(m: Machinery, task: Task, txb0: TxBuilder) returns (out: TaskOutcome)
    ensures |out.onFinish| == 1
    ensures out.onFinish[0].None? <==> TaskSucceeds(m, task, txb0)
    ensures out.onFinish[0] == Some(NoUpdatesError)
            <==> m.createVMContext(task, txb0).Ok? && |task.requests| == 0
    ensures out.resultBlock.Some? ==>
              && |out.resultBlock.value.updates| == |task.requests|
              && out.resultBlock.value.stateIndex == NextStateIndex(task.state.index)
              && forall i :: 0 <= i < |task.requests| ==>
                   && out.resultBlock.value.updates[i].requestID == task.requests[i].id
                   && out.resultBlock.value.updates[i].timestamp == TimestampAt(task.timestamp, i)
    ensures out.stateParams.Some? ==>
              && out.resultBlock.Some?
              && m.applyBlock(task.state, out.resultBlock.value).Ok?
              && out.stateParams.value.stateIndex == out.resultBlock.value.stateIndex
              && out.stateParams.value.stateHash
                   == m.stateHash(m.applyBlock(task.state, out.resultBlock.value).value)
              && out.stateParams.value.timestamp
                   == m.applyBlock(task.state, out.resultBlock.value).value.timestamp
    ensures out.onFinish[0].None? ==>
              var s := Prefix(m, task, ContextBuilder(m, task, txb0), |task.requests|);
              && out.resultBlock.Some? && out.resultTx.Some? && out.stateParams.Some?
              && out.resultBlock.value.updates == s.updates
              && m.setStateParams(s.txb, out.stateParams.value).Ok?
              && out.resultTx.value == m.build(m.setStateParams(s.txb, out.stateParams.value).value).value
  {
    var vmctx := m.createVMContext(task, txb0);
    if vmctx.Err? {
      return TaskOutcome([Some("runTask.createVMContext: " + vmctx.msg)], None, None, None);
    }
    // The VM context works on its own copy of the previous state, with the
    // builder createVMContext prepared.
    var vs := task.state;
    var txb := vmctx.value;
    var ts := task.timestamp;
    var entropy := task.entropy;
    var updates: seq<StateUpdate> := [];
    for i := 0 to |task.requests|
      invariant ExecState(vs, txb, ts, entropy, updates) == Prefix(m, task, vmctx.value, i)
    {
      var req := task.requests[i];
      var r := m.runRequest(RequestContext(vs, txb, req, ts, entropy));
      var upd := StateUpdate(req.id, ts, r.mutations);
      txb := r.txb;
      updates := updates + [upd];
      vs := m.applyUpdate(vs, upd);
      if ts != 0 {
        ts := ts + 1;
      }
      entropy := m.hashData(entropy);
    }
    PrefixShape(m, task, vmctx.value, |task.requests|);
    if |updates| == 0 {
      return TaskOutcome([Some(NoUpdatesError)], None, None, None);
    }
    var blockErr := m.newBlockCheck(updates);
    if blockErr.Some? {
      assert ("RunVM.NewBlock: " + blockErr.value)[5] != NoUpdatesError[5];
      return TaskOutcome([Some("RunVM.NewBlock: " + blockErr.value)], None, None, None);
    }
    var block := Block(updates, NextStateIndex(task.state.index));
    // The resulting state hash is taken on a clone of the previous state.
    var cloned := m.applyBlock(task.state, block);
    if cloned.Err? {
      return TaskOutcome([Some("RunVM.ApplyBatch: " + cloned.msg)], Some(block), None, None);
    }
    var params := StateParams(NextStateIndex(task.state.index), m.stateHash(cloned.value), cloned.value.timestamp);
    var withParams := m.setStateParams(txb, params);
    if withParams.Err? {
      return TaskOutcome([Some("RunVM.txbuilder.SetStateParams: " + withParams.msg)], Some(block), None, Some(params));
    }
    var tx := m.build(withParams.value);
    if tx.Err? {
      return TaskOutcome([Some("RunVM.txbuilder.Build: " + tx.msg)], Some(block), None, Some(params));
    }
    var propErr := m.properties(tx.value);
    if propErr.Some? {
      return TaskOutcome([Some("RunVM.txbuilder.Properties: " + propErr.value)], Some(block), Some(tx.value), Some(params));
    }
    out := TaskOutcome([None], Some(block), Some(tx.value), Some(params));
  }

  /** What `RunComputationsAsync` returns to its caller and the task it starts. */
  datatype AsyncOutcome = AsyncOutcome(err: Option<string>, started: Option<TaskOutcome>)

  /** `RunComputationsAsync`: reject an empty batch, create the transaction
      builder, and start the task; the caller gets an error only when no task
      was started. */
  method RunComputationsAsync(m: Machinery, task: Task) returns (out: AsyncOutcome)
    ensures out.err.Some? <==> out.started.None?
    ensures |task.requests| == 0 ==> out.err == Some(EmptyBatchError)
    ensures out.started.Some? <==> |task.requests| > 0 && m.newTxBuilder(task.chainID, task.balances).Ok?
    ensures out.started.Some? ==>
              && |out.started.value.onFinish| == 1
              && out.started.value.onFinish[0] != Some(NoUpdatesError)
              && (out.started.value.onFinish[0].None? <==>
                    TaskSucceeds(m, task, m.newTxBuilder(task.chainID, task.balances).value))
  {
    if |task.requests| == 0 {
      return AsyncOutcome(Some(EmptyBatchError), None);
    }
    var txb := m.newTxBuilder(task.chainID, task.balances);
    if txb.Err? {
      return AsyncOutcome(Some(txb.msg), None);
    }
    var finished := RunTask(m, task, txb.value);
    out := AsyncOutcome(None, Some(finished));
  }
}

=== FILE: statemgr.dfy ===
/** One reconciliation pass of the chain's state manager (statemgr/action.go):
    pull the anchor output when the retry deadline has passed, absorb blocks
    from the local committee or from peers into the candidate tracker, notify
    the state transition once per synced solid state, and publish the sync
    status. The manager is an immutable record; every operation returns the
    updated record. Clock readings are the parameter `now`, goroutine event
    triggers and node-connection requests are appended to `events`. */
module StateManager {
  import opened Bytes
  import opened Outcomes

  type OutputID = seq<byte>

  /** The solid (locally believed authoritative) state: index, hash, timestamp. */
  datatype SolidState = SolidState(index: nat, hash: Hash, timestamp: int)

  /** The anchor output observed on the ledger; its state data should hold
      the 32-byte state hash it commits to. */
  datatype StateOutput = StateOutput(id: OutputID, stateIndex: nat, stateData: seq<byte>)

  /** A block as the tracker sees it: its index, the hash identifying it, and
      the output that is supposed to approve it. */
  datatype Block = Block(index: nat, blockHash: Hash, approvingOutputID: OutputID)

  /** Candidates are keyed by (index, hash), so competing blocks at one index
      stay apart. */
  datatype CandidateKey = CandidateKey(index: nat, blockHash: Hash)

  /** A candidate block; a local candidate carries the state the committee
      computed for it. */
  datatype Candidate = Candidate(block: Block, nextState: Option<SolidState>, approved: bool)

  /** The candidate tracker (`syncingBlocks`): the indices being synced and
      the candidates held for them. */
  datatype Tracker = Tracker(syncing: set<nat>, candidates: map<CandidateKey, Candidate>)

  /** The published sync-status record (`chain.SyncInfo`). */
  datatype SyncInfo = SyncInfo(
    synced: bool,
    syncedBlockIndex: nat,
    syncedStateHash: Hash,
    syncedStateTimestamp: int,
    stateOutputBlockIndex: nat,
    stateOutputID: OutputID,
    stateOutputHash: Hash,
    stateOutputTimestamp: int)

  /** Requests to the node connection and events triggered for observers. */
  datatype Event =
    | PullState
    | PullConfirmedOutput(outputID: OutputID)
    | StateTransition(state: SolidState, output: StateOutput, outputTimestamp: int)
    | StateSynced(outputID: OutputID, stateIndex: nat)

  /** The two pull delays: the steady-state retry and the delay after a new
      block from the committee. */
  datatype Timers = Timers(pullStateRetry: int, pullStateNewBlockDelay: int)

  datatype Manager = Manager(
    ready: bool,
    solidState: SolidState,
    stateOutput: Option<StateOutput>,
    stateOutputTimestamp: int,
    notifiedSyncedStateHash: Hash,
    pullStateRetryTime: int,
    tracker: Tracker,
    currentSyncData: Option<SyncInfo>,
    events: seq<Event>,
    timers: Timers)

  /** The parts of the candidate tracker whose code is not part of this
      model: `approveIfRightOutput`'s verdict on a candidate and an anchor
      output, and the blocks for which `addBlockCandidate` returns no
      candidate at all. */
  datatype TrackerRules = TrackerRules(
    approves: (Candidate, StateOutput) -> bool,
    refuses: Block -> bool)

  /** `doSyncActionIfNeeded`, which this model leaves abstract. */
  type SyncAction = Manager -> Manager

  /** `hashing.HashValueFromBytes`: only a 32-byte value decodes to a hash. */
  function HashValueFromBytes(data: seq<byte>): (h: Option<Hash>)
    ensures h.Some? <==> |data| == 32
    ensures h.Some? ==> h.value == data
  {
    if |data| == 32 then Some(data) else None
  }

  // ----- isSynced -----

  /** The solid state is synced when an anchor output is known and its state
      data are exactly the bytes of the solid state's hash. */
  predicate IsSynced(m: Manager)
    ensures IsSynced(m) ==> m.stateOutput.Some? && |m.stateOutput.value.stateData| == 32
    ensures m.stateOutput.None? ==> !IsSynced(m)
  {
    m.stateOutput.Some? && m.solidState.hash == m.stateOutput.value.stateData
  }

  /** Synced means the anchor's state data decode to the solid hash; with no
      anchor, or with state data that do not decode to it, the manager is not
      synced. */
  lemma IsSyncedMeansAnchorCommitsToSolid(m: Manager)
    ensures IsSynced(m) <==>
              m.stateOutput.Some? && HashValueFromBytes(m.stateOutput.value.stateData) == Some(m.solidState.hash)
  {
  }

  // ----- notifyStateTransitionIfNeeded -----

  /** Fire the state-transition and state-synced events, unless the solid
      hash was already notified or the manager is not synced. */
  function NotifyStateTransitionIfNeeded(m: Manager): (r: Manager)
    ensures |r.events| > |m.events| <==>
              m.notifiedSyncedStateHash != m.solidState.hash && IsSynced(m)
    ensures |r.events| > |m.events| ==>
              && r.notifiedSyncedStateHash == m.solidState.hash
              && r.events == m.events + [StateTransition(m.solidState, m.stateOutput.value, m.stateOutputTimestamp),
                                         StateSynced(m.stateOutput.value.id, m.stateOutput.value.stateIndex)]
    ensures !(m.notifiedSyncedStateHash != m.solidState.hash && IsSynced(m)) ==> r == m
    ensures IsSynced(m) ==> r.notifiedSyncedStateHash == m.solidState.hash
    ensures r == m.(notifiedSyncedStateHash := r.notifiedSyncedStateHash, events := r.events)
  {
    if m.notifiedSyncedStateHash == m.solidState.hash then m
    else if !IsSynced(m) then m
    else
      var out := m.stateOutput.value;
      m.(notifiedSyncedStateHash := m.solidState.hash,
         events := m.events + [StateTransition(m.solidState, out, m.stateOutputTimestamp),
                               StateSynced(out.id, out.stateIndex)])
  }

  /** A second notification attempt right after the first changes nothing. */
  lemma NotifyIdempotent(m: Manager)
    ensures NotifyStateTransitionIfNeeded(NotifyStateTransitionIfNeeded(m)) == NotifyStateTransitionIfNeeded(m)
  {
  }

  /** Notification happens at most once per solid hash: once the hash was
      notified, nothing that keeps the solid hash makes it fire again. */
  lemma NotifyOncePerSolidHash(m: Manager, m': Manager)
    requires |NotifyStateTransitionIfNeeded(m).events| > |m.events|
    requires m'.solidState.hash == m.solidState.hash
    requires m'.notifiedSyncedStateHash == NotifyStateTransitionIfNeeded(m).notifiedSyncedStateHash
    ensures NotifyStateTransitionIfNeeded(m') == m'
  {
  }

  // ----- pullStateIfNeeded -----

  /** Ask the node connection for the anchor when `now` is strictly after the
      retry time, and move the retry time to `now` plus the retry delay. */
  function PullStateIfNeeded(m: Manager, now: int): (r: Manager)
    ensures now > m.pullStateRetryTime ==>
              r.events == m.events + [PullState] && r.pullStateRetryTime == now + m.timers.pullStateRetry
    ensures now <= m.pullStateRetryTime ==> r == m
    ensures r == m.(pullStateRetryTime := r.pullStateRetryTime, events := r.events)
  {
    if now > m.pullStateRetryTime then
      m.(events := m.events + [PullState], pullStateRetryTime := now + m.timers.pullStateRetry)
    else m
  }

  /** With a non-negative retry delay, no second pull is issued before the
      new deadline has passed. */
  lemma PullBacksOff(m: Manager, now: int, later: int)
    requires m.timers.pullStateRetry >= 0
    requires now > m.pullStateRetryTime
    requires now <= later <= now + m.timers.pullStateRetry
    ensures PullStateIfNeeded(PullStateIfNeeded(m, now), later) == PullStateIfNeeded(m, now)
  {
  }

  // ----- the candidate tracker, abstractly -----

  datatype AddOutcome = AddOutcome(tracker: Tracker, isNew: bool, key: Option<CandidateKey>)

  /** `addBlockCandidate`: no candidate for a block the tracker refuses; the
      existing candidate for a known (index, hash); otherwise a new
      unapproved candidate. */
  function AddBlockCandidate(rules: TrackerRules, t: Tracker, block: Block, nextState: Option<SolidState>): (r: AddOutcome)
    ensures r.key.None? <==> rules.refuses(block)
    ensures r.key.Some? ==> r.key.value == CandidateKey(block.index, block.blockHash)
    ensures r.isNew <==> r.key.Some? && r.key.value !in t.candidates
    ensures r.isNew ==> r.tracker == t.(candidates := t.candidates[r.key.value := Candidate(block, nextState, false)])
    ensures !r.isNew ==> r.tracker == t
  {
    if rules.refuses(block) then AddOutcome(t, false, None)
    else
      var key := CandidateKey(block.index, block.blockHash);
      if key in t.candidates then AddOutcome(t, false, Some(key))
      else AddOutcome(t.(candidates := t.candidates[key := Candidate(block, nextState, false)]), true, Some(key))
  }

  // ----- addBlockAndCheckStateOutput -----

  datatype CheckOutcome = CheckOutcome(manager: Manager, newAndUnapproved: bool)

  /** Add the block to the candidates and report whether it is new and not
      approved by the current anchor output. */
  function AddBlockAndCheckStateOutput(m: Manager, rules: TrackerRules, block: Block, nextState: Option<SolidState>): (r: CheckOutcome)
    ensures r.newAndUnapproved <==>
              && !rules.refuses(block)
              && CandidateKey(block.index, block.blockHash) !in m.tracker.candidates
              && !(m.stateOutput.Some? && rules.approves(Candidate(block, nextState, false), m.stateOutput.value))
    ensures r.manager == m.(tracker := r.manager.tracker)
    ensures r.manager.tracker.syncing == m.tracker.syncing
    ensures var key := CandidateKey(block.index, block.blockHash);
            if !rules.refuses(block) && key !in m.tracker.candidates then
              && r.manager.tracker.candidates.Keys == m.tracker.candidates.Keys + {key}
              && r.manager.tracker.candidates[key].block == block
              && r.manager.tracker.candidates[key].nextState == nextState
              && r.manager.tracker.candidates[key].approved == !r.newAndUnapproved
              && forall k :: k in m.tracker.candidates ==> r.manager.tracker.candidates[k] == m.tracker.candidates[k]
            else r.manager == m
  {
    var added := AddBlockCandidate(rules, m.tracker, block, nextState);
    if added.key.None? then CheckOutcome(m, false)
    else if added.isNew then
      var key := added.key.value;
      var c := added.tracker.candidates[key];
      var checked := if m.stateOutput.Some? then c.(approved := c.approved || rules.approves(c, m.stateOutput.value)) else c;
      CheckOutcome(m.(tracker := added.tracker.(candidates := added.tracker.candidates[key := checked])), !checked.approved)
    else CheckOutcome(m, false)
  }

  /** Adding the same block twice: the second time reports nothing new and
      changes nothing. */
  lemma AddBlockAndCheckIdempotent(m: Manager, rules: TrackerRules, block: Block, nextState: Option<SolidState>, nextState': Option<SolidState>)
    ensures var first := AddBlockAndCheckStateOutput(m, rules, block, nextState);
            var second := AddBlockAndCheckStateOutput(first.manager, rules, block, nextState');
            !second.newAndUnapproved && second.manager == first.manager
  {
  }

  // ----- addBlockFromPeer -----

  /** A peer's block is taken only for an index being synced; when it is new
      and not yet approved, the output approving it is requested. */
  function AddBlockFromPeer(m: Manager, rules: TrackerRules, block: Block): (r: Manager)
    ensures block.index !in m.tracker.syncing ==> r == m
    ensures block.index in m.tracker.syncing ==>
            var checked := AddBlockAndCheckStateOutput(m, rules, block, None);
            if checked.newAndUnapproved then
              r == checked.manager.(events := m.events + [PullConfirmedOutput(block.approvingOutputID)])
            else r == checked.manager
    ensures r.events == m.events || r.events == m.events + [PullConfirmedOutput(block.approvingOutputID)]
  {
    if block.index !in m.tracker.syncing then m
    else
      var checked := AddBlockAndCheckStateOutput(m, rules, block, None);
      if checked.newAndUnapproved then
        checked.manager.(events := checked.manager.events + [PullConfirmedOutput(block.approvingOutputID)])
      else checked.manager
  }

  /** A block received twice from peers triggers at most one request for its
      approving output. */
  lemma PeerBlockRequestedOnce(m: Manager, rules: TrackerRules, block: Block)
    ensures var once := AddBlockFromPeer(m, rules, block);
            AddBlockFromPeer(once, rules, block) == once
  {
  }

  // ----- addBlockFromConsensus -----

  /** The outcome of `ExtractBlock` on the committee's next state. */
  datatype Extracted = ExtractError(msg: string) | NoBlock | Extracted(block: Block)

  /** The committee's next state and the block extracted from it. */
  datatype ConsensusState = ConsensusState(state: SolidState, extracted: Extracted)

  /** Take a block computed by the local committee; when the known anchor is
      older than the block (or unknown), bring the next pull forward to
      `now` plus the new-block delay. */
  function AddBlockFromConsensus(m: Manager, rules: TrackerRules, next: ConsensusState, now: int): (r: Manager)
    ensures !next.extracted.Extracted? ==> r == m
    ensures next.extracted.Extracted? ==>
              var block := next.extracted.block;
              var checked := AddBlockAndCheckStateOutput(m, rules, block, Some(next.state));
              && r.tracker == checked.manager.tracker
              && (if m.stateOutput.None? || m.stateOutput.value.stateIndex < block.index
                  then r.pullStateRetryTime == now + m.timers.pullStateNewBlockDelay
                  else r.pullStateRetryTime == m.pullStateRetryTime)
    ensures r == m.(tracker := r.tracker, pullStateRetryTime := r.pullStateRetryTime)
  {
    match next.extracted
    case ExtractError(_) => m
    case NoBlock => m
    case Extracted(block) =>
      var m1 := AddBlockAndCheckStateOutput(m, rules, block, Some(next.state)).manager;
      if m1.stateOutput.None? || m1.stateOutput.value.stateIndex < block.index then
        m1.(pullStateRetryTime := now + m1.timers.pullStateNewBlockDelay)
      else m1
  }

  /** Delivering the same committee state twice adds its block once: the
      second delivery leaves the tracker as the first left it. */
  lemma ConsensusRedeliveryKeepsTracker(m: Manager, rules: TrackerRules, next: ConsensusState, now: int, later: int)
    ensures var first := AddBlockFromConsensus(m, rules, next, now);
            AddBlockFromConsensus(first, rules, next, later).tracker == first.tracker
  {
  }

  // ----- storeSyncingData -----

  /** The sync-status record describing the manager, given the decoded hash
      of its anchor output. */
  function SyncInfoOf(m: Manager, outputHash: Hash): SyncInfo
    requires m.stateOutput.Some?
  {
    SyncInfo(IsSynced(m), m.solidState.index, m.solidState.hash, m.solidState.timestamp,
             m.stateOutput.value.stateIndex, m.stateOutput.value.id, outputHash, m.stateOutputTimestamp)
  }

  /** The anchor's state data decode to a hash. */
  predicate AnchorDecodes(m: Manager)
  {
    m.stateOutput.Some? && HashValueFromBytes(m.stateOutput.value.stateData).Some?
  }

  /** Publish the sync status, replacing the whole record, when an anchor is
      known and its state data decode to a hash; otherwise leave it. */
  function StoreSyncingData(m: Manager): (r: Manager)
    ensures !AnchorDecodes(m) ==> r == m
    ensures AnchorDecodes(m) ==>
              && r.currentSyncData.Some?
              && r.currentSyncData.value.synced == IsSynced(m)
              && r.currentSyncData.value.stateOutputHash == m.stateOutput.value.stateData
              && r.currentSyncData.value.syncedStateHash == m.solidState.hash
              && r.currentSyncData.value.syncedBlockIndex == m.solidState.index
              && r.currentSyncData.value.syncedStateTimestamp == m.solidState.timestamp
              && r.currentSyncData.value.stateOutputTimestamp == m.stateOutputTimestamp
              && r.currentSyncData.value.stateOutputBlockIndex == m.stateOutput.value.stateIndex
              && r.currentSyncData.value.stateOutputID == m.stateOutput.value.id
    ensures r == m.(currentSyncData := r.currentSyncData)
  {
    if m.stateOutput.None? then m
    else
      var outputHash := HashValueFromBytes(m.stateOutput.value.stateData);
      if outputHash.None? then m
      else m.(currentSyncData := Some(SyncInfoOf(m, outputHash.value)))
  }

  /** The published record says "synced" exactly when its two hashes agree. */
  lemma PublishedSyncedMeansHashesAgree(m: Manager)
    requires AnchorDecodes(m)
    ensures var info := StoreSyncingData(m).currentSyncData.value;
            info.synced <==> info.syncedStateHash == info.stateOutputHash
  {
  }

  // ----- takeAction -----

  /** One reconciliation pass: nothing when the manager is not ready,
      otherwise pull, sync, notify and store, in this order. */
  function TakeAction(m: Manager, sync: SyncAction, now: int): (r: Manager)
    ensures !m.ready ==> r == m
    ensures m.ready ==> NotifyStateTransitionIfNeeded(r) == r
    ensures m.ready && AnchorDecodes(r) ==>
              r.currentSyncData == Some(SyncInfoOf(r, r.stateOutput.value.stateData))
  {
    if !m.ready then m
    else
      var pulled := PullStateIfNeeded(m, now);
      var synced := sync(pulled);
      var notified := NotifyStateTransitionIfNeeded(synced);
      StoreSyncingData(notified)
  }

  /** When the sync step leaves the event log alone, the pass's events are:
      the anchor pull (exactly when the retry time has passed), then either
      nothing or the state-transition event followed by the synced event. */
  lemma TakeActionEventOrder(m: Manager, sync: SyncAction, now: int)
    requires m.ready
    requires sync(PullStateIfNeeded(m, now)).events == PullStateIfNeeded(m, now).events
    ensures var r := TakeAction(m, sync, now);
            var pulls := if now > m.pullStateRetryTime then [PullState] else [];
            && r.events[..|m.events| + |pulls|] == m.events + pulls
            && |r.events| - |m.events| - |pulls| in {0, 2}
            && (|r.events| > |m.events| + |pulls| ==>
                  && r.events[|m.events| + |pulls|].StateTransition?
                  && r.events[|m.events| + |pulls| + 1].StateSynced?)
            && forall i :: |m.events| + |pulls| <= i < |r.events| ==> r.events[i].StateTransition? || r.events[i].StateSynced?
  {
  }
}
